=== FILE: README.md ===
# Frame sampler of the scene-segmentation service

This project models `extract_frames` in `video_analyzer.py` in Dafny and proves
properties about it. `extract_frames` turns an uploaded video into the ordered
list of JPEG stills that the scene analyser sends to the hosted model. It works
in four steps:

1. It opens the video and gives up with an empty list when the file is
   missing, the capture does not open, or the reported frame rate or frame
   count is zero.
2. It sets `frame_interval = fps / frames_per_second` and computes the
   target frame indices `int(i * frame_interval)` for `i` in
   `range(int(total_frames / frame_interval))`.
3. It seeks to each index and reads one frame. Successful reads are kept and
   failed reads are skipped.
4. It releases the capture in a `finally` block.

Modules:

- `Orders` (`orders.dfy`): non-decreasing and strictly increasing integer
  sequences, shared by the other modules.
- `PyNumbers` (`py_numbers.dfy`): Python's `int()` on a float (truncation
  toward zero) and the length of `range(k)`.
- `FrameIndices` (`frame_indices.dfy`): the index arithmetic. It covers the
  interval, the sample count and the index list, with lemmas for count,
  bounds and ordering.
- `FrameSelection` (`frame_selection.dfy`): the loop over the indices. It is
  modelled against an abstract read oracle `int -> ReadResult<F>`. Each
  outcome is `Frame(image)`, `NoFrame` or `Raises`, and the encoded image `F`
  is opaque. `Kept` and `FirstRaise` give the functional meaning, and
  `SelectFrames` is the imperative loop, proved to agree with them.
- `VideoAnalyzer` (`video_analyzer.dfy`): the whole call. What the path holds
  is a `Probe`: `Missing`, `Unopenable`, or `Opened(frameCount, fps)`. The
  call's effect on the capture is recorded as a trace of `Acquire`,
  `Seek(index)` and `Release` events. The result is either `Returned(frames)`
  or `Raised(error)`.

Some of the code's behaviour is easy to misread. The model follows the code as written:

- A file that is missing or cannot be opened gives an empty list, not an
  error. So does unusable metadata.
- With positive rates and at least two samples, the indices are strictly
  increasing only when the sampling rate does not exceed the native rate. When sampling
  is faster, frame 0 is requested twice (`StrictlyIncreasingIffWholeFrameApart`).
  With a single sample the list is `[0]` whatever the rates.
- `frames_per_second` is never checked. A value of 0 raises
  `ZeroDivisionError` at the interval division, and the capture is still
  released. The model represents this as `Raised(ZeroDivisionError)` and does
  not make it a precondition.
- A negative frame count is not guarded either. With positive native and
  sampling rates it yields no indices, because `range` of a non-positive number
  is empty. A negative sampling rate makes the interval negative. Then a
  negative frame count of at least one interval in magnitude yields indices.
  They start at frame 0 and never rise above 0. An interval shorter than one
  frame in magnitude repeats frame 0 first.

## Model

| member | source | states |
|---|---|---|
| PyNumbers.Trunc | video_analyzer.py:20 | `int()` of a non-negative value is the largest integer not above it; of a negative value, the smallest integer not below it |
| VideoAnalyzer.TotalFrames | video_analyzer.py:20 | the frame count the sampler uses is the reported count truncated toward zero: within one frame of it, and never further from zero |
| VideoAnalyzer.UsableMetadata | video_analyzer.py:23 | the guard lets the sampler proceed if and only if the native rate is non-zero and the reported frame count is at least 1 in magnitude (smaller counts truncate to zero) |
| FrameIndices.FrameInterval | video_analyzer.py:28 | the interval is the number of frames that `frames_per_second` samples divide one second into: interval times the sampling rate is the native rate |
| FrameIndices.SampleCount | video_analyzer.py:29 | for a positive interval and a non-negative frame count, the count is the number of whole intervals that fit in the video; a non-positive frame count gives no samples |
| FrameIndices.SampleFrame | video_analyzer.py:29 | the frame a sample asks for is the whole part of the sample's position `i * interval`, never negative |
| FrameIndices.TargetIndices | video_analyzer.py:29 | for a positive interval the list covers the whole intervals that fit in the video, is empty when the frame count is not positive, and each index is the frame its sample's position falls in |
| FrameIndices.CountIsWholeIntervals | video_analyzer.py:28-29 | for a positive interval the number of indices is `floor(total_frames / interval)`; a non-positive frame count gives no indices |
| FrameIndices.SampleTakenIffIntervalFits | video_analyzer.py:29 | sample `i` is taken if and only if its whole interval `(i + 1) * interval` fits within `total_frames` |
| FrameIndices.IndicesInBounds | video_analyzer.py:29 | every index is `floor(i * interval)` and lies in `[0, total_frames)`; the first index, when present, is 0 |
| FrameIndices.IndicesNonDecreasing | video_analyzer.py:29 | for any positive interval the index list never decreases |
| FrameIndices.IndicesStrictlyIncreasing | video_analyzer.py:29 | when the interval is at least one frame the indices strictly increase, so no frame is requested twice |
| FrameIndices.StrictlyIncreasingIffWholeFrameApart | video_analyzer.py:29 | with two or more samples, the indices strictly increase exactly when the interval is at least one frame |
| FrameIndices.OneHzCountIsWholeSeconds | video_analyzer.py:28-29 | at one sample per second the index count is `floor(total_frames / fps)`, the whole-second duration the analysis prompt assumes |
| FrameIndices.OneMinuteAtThirtyFps | video_analyzer.py:28-29 | 1800 frames at 30 fps sampled at 1 Hz give the 60 indices 0, 30, ..., 1770 |
| FrameSelection.FirstRaise | video_analyzer.py:33-39 | the loop reaches the returned position without any read raising, and the read there raises unless every index was visited |
| FrameSelection.Kept | video_analyzer.py:33-39 | never more frames than indices, and exactly as many if and only if every read succeeds |
| FrameSelection.KeptAppend | video_analyzer.py:33-39 | the filter is order-preserving: selecting from two consecutive stretches and joining equals selecting from the whole |
| FrameSelection.KeptPositions | video_analyzer.py:33-39 | each kept frame is the image of a successful read, at strictly increasing positions, and every successful read is kept (no placeholders, no omissions) |
| FrameSelection.Select | video_analyzer.py:33-39 | the loop ends in an exception if and only if some read raises, and then at the first such index; otherwise it completes with exactly the kept frames |
| FrameSelection.SelectFrames | video_analyzer.py:31-39 | the imperative loop with append and skip yields the same result as the functional selection |
| VideoAnalyzer.ExtractFrames | video_analyzer.py:8-46 | a missing or unopenable file returns an empty list and never opens or releases a capture; an opened capture is acquired first and released last, exactly once, on every path; unusable metadata returns an empty list; no more frames are returned than seeks were made |
| VideoAnalyzer.SampleAt | video_analyzer.py:31-43 | once the index list is known, the capture is acquired first and released last exactly once; the call returns iff no read raises, then with exactly the successful reads after one seek per index, and on an exception the seeks stop at the first raising index |
| VideoAnalyzer.SeekTargetsOfSeeks | video_analyzer.py:33-34 | the seek targets recorded in a trace read back as the index list, in order |
| VideoAnalyzer.CompletedRunKeepsSuccessfulReads | video_analyzer.py:28-43 | with usable metadata and a non-zero rate the call returns if and only if no read raises; on return it gives exactly the successful reads in index order after one seek per target index; on an exception the seeks stop at the raising index |
| VideoAnalyzer.RaisesOnlyForZeroRateOrDecoder | video_analyzer.py:10-43 | an exception escapes if and only if the capture opened with usable metadata and either the sampling rate is zero (`ZeroDivisionError`) or some target read raises |
| VideoAnalyzer.OneFramePerSecondOfVideo | video_analyzer.py:28-39 | at 1 Hz with every read succeeding, the number of returned frames equals the video's whole-second duration |
| VideoAnalyzer.ReturnedFramesComeFromTheVideo | video_analyzer.py:29-39 | every returned frame is the read of a frame inside `[0, total_frames)`; those frames never go backwards, and they are distinct when the sampling rate does not exceed the native rate |

## Left out

- `analyze_video_frames`: a single call to a hosted generative model. The
  response schema and the prompt are literals passed to that service, and the
  catch-all that returns `None` only wraps the network call.
- `app.py`: HTTP routing and its 400/500 responses, API-key configuration,
  saving and deleting the upload on disk, and `json.loads` of the service's
  response.
- OpenCV (`cv2.VideoCapture`, `set`, `read`, `imencode`) and base64 encoding.
  These are foreign library calls. A seek and a read together are one oracle
  outcome, keyed by frame index. The encoded frame is an opaque value.
- A read oracle that can answer differently for the same frame on different
  attempts. The oracle here is a function of the index, so a repeated index
  (sampling faster than the native rate) reads the same outcome twice.
- An exception raised by the `cv2.VideoCapture` constructor itself. Nothing
  would be open then, so there is nothing to release.
- A capture that closes during the loop. The model assumes `isOpened()` still
  holds in the `finally` block once it held at the start.
- Floating point. Frame rate, frame count and sampling rate are exact reals.
  IEEE rounding in `fps / frames_per_second` and in the products
  `i * frame_interval` could move an index by one at exact boundaries. Rounding
  in the count quotient `total_frames / frame_interval` could change the
  number of samples by one when the exact quotient lies just below a whole
  number. NaN and
  infinite metadata are not modelled.
- The `print` logging throughout the function.

=== FILE: frame_indices.dfy ===
/**
 Which frames the sampler asks the video for. With native rate `fps` and a
 requested sampling rate `rate`, consecutive samples lie `fps / rate` frames
 apart, and sample number `i` is frame `int(i * interval)`. The number of
 samples is `int(totalFrames / interval)`, so only whole intervals that fit
 in the video are sampled.
 */
module FrameIndices {
  import opened PyNumbers
  import opened Orders

  /** Frames between consecutive samples: `rate` samples per second span `fps` frames. */
  function FrameInterval(fps: real, rate: real): (interval: real)
    requires rate != 0.0
    ensures interval * rate == fps
  {
    DivThenScale(fps, rate);
    fps / rate
  }

  /**
   How many samples are taken: the length of `range(int(totalFrames / interval))`.
   For a positive interval it is the number of whole intervals in the video.
   */
  function SampleCount(totalFrames: int, interval: real): (n: nat)
    requires interval != 0.0
    ensures 0.0 < interval && 0 <= totalFrames ==>
      n as real * interval <= totalFrames as real < (n + 1) as real * interval
    ensures 0.0 < interval && totalFrames <= 0 ==> n == 0
  {
    WholeIntervals(totalFrames, interval);
    RangeLength(Trunc(totalFrames as real / interval))
  }

  /** The whole number of positive intervals in `totalFrames` is bracketed by the count's multiples. */
  lemma WholeIntervals(totalFrames: int, interval: real)
    requires interval != 0.0
    ensures var n := RangeLength(Trunc(totalFrames as real / interval));
      && (0.0 < interval && 0 <= totalFrames ==> n as real * interval <= totalFrames as real < (n + 1) as real * interval)
      && (0.0 < interval && totalFrames <= 0 ==> n == 0)
  {
    if 0.0 < interval {
      var q := totalFrames as real / interval;
      DivSign(totalFrames as real, interval);
      DivThenScale(totalFrames as real, interval);
      if 0 <= totalFrames {
        TruncIsFloor(q);
        var n := RangeLength(Trunc(q));
        assert n == q.Floor;
        ScaleLower(q, interval, n as real, totalFrames as real);
        ScaleUpper(q, interval, (n + 1) as real, totalFrames as real);
      } else {
        TruncOfNegative(q);
      }
    }
  }

  /**
   The frame that sample number `i` asks for: `int(i * interval)`. For a
   non-negative sample number and a positive interval it is the whole part of
   the sample's position.
   */
  function SampleFrame(i: int, interval: real): (k: int)
    ensures 0 <= i && 0.0 < interval ==> 0 <= k && k as real <= i as real * interval < (k + 1) as real
  {
    PositionSign(i, interval);
    Trunc(i as real * interval)
  }

  /** A non-negative sample number at a positive interval has a non-negative position. */
  lemma PositionSign(i: int, interval: real)
    ensures 0 <= i && 0.0 < interval ==> 0.0 <= i as real * interval
  {
    if 0 <= i && 0.0 < interval {
      ScaleOrder(0.0, i as real, interval);
      assert 0.0 * interval == 0.0;
    }
  }

  /**
   The frame indices, in the order they are visited. For a positive interval
   and a non-empty video, the samples cover whole intervals within the video,
   and each index is the frame its sample's position falls in; a frame count
   that is not positive gives no index.
   */
  function TargetIndices(totalFrames: int, interval: real): (r: seq<int>)
    requires interval != 0.0
    ensures 0.0 < interval && 0 <= totalFrames ==>
      |r| as real * interval <= totalFrames as real < (|r| + 1) as real * interval
    ensures 0.0 < interval && totalFrames <= 0 ==> r == []
    ensures 0.0 < interval ==>
      forall i :: 0 <= i < |r| ==> 0 <= r[i] && r[i] as real <= i as real * interval < (r[i] + 1) as real
  {
    seq(SampleCount(totalFrames, interval), i => SampleFrame(i, interval))
  }

  /**
   The number of indices is the whole number of intervals in the video, and
   a negative frame count (a stream that reports none) yields no index.
   */
  lemma CountIsWholeIntervals(totalFrames: int, interval: real)
    requires 0.0 < interval
    ensures totalFrames >= 0 ==> |TargetIndices(totalFrames, interval)| == (totalFrames as real / interval).Floor
    ensures totalFrames <= 0 ==> TargetIndices(totalFrames, interval) == []
  {
    var q := totalFrames as real / interval;
    DivSign(totalFrames as real, interval);
    if totalFrames >= 0 {
      TruncIsFloor(q);
    } else {
      TruncOfNegative(q);
    }
  }

  /**
   Sample `i` is taken exactly when its whole interval `[i * interval, (i + 1) * interval)`
   fits inside the video: this pins down the sample count independently of the
   floor-of-a-quotient formula.
   */
  lemma SampleTakenIffIntervalFits(totalFrames: int, interval: real, i: int)
    requires 0.0 < interval
    requires 0 <= i
    ensures i < |TargetIndices(totalFrames, interval)| <==> (i + 1) as real * interval <= totalFrames as real
  {
    var n := |TargetIndices(totalFrames, interval)|;
    var q := totalFrames as real / interval;
    CountIsWholeIntervals(totalFrames, interval);
    DivThenScale(totalFrames as real, interval);
    if totalFrames >= 0 {
      assert n == q.Floor;
      FloorBound(i + 1, q);
      ScaleBound(q, interval, (i + 1) as real, totalFrames as real);
    } else {
      assert n == 0;
      ScaleOrder(0.0, (i + 1) as real, interval);
    }
  }

  /**
   Every index is the floor of its sample's position, lies inside the video,
   and the first one (when there is one) is frame 0.
   */
  lemma IndicesInBounds(totalFrames: int, interval: real)
    requires 0.0 < interval
    ensures var r := TargetIndices(totalFrames, interval);
      forall i :: 0 <= i < |r| ==> r[i] == (i as real * interval).Floor && 0 <= r[i] < totalFrames
    ensures |TargetIndices(totalFrames, interval)| > 0 ==> TargetIndices(totalFrames, interval)[0] == 0
  {
    var r := TargetIndices(totalFrames, interval);
    forall i | 0 <= i < |r|
      ensures r[i] == (i as real * interval).Floor && 0 <= r[i] < totalFrames
    {
      var x := i as real * interval;
      SampleTakenIffIntervalFits(totalFrames, interval, i);
      ScaleOrder(0.0, i as real, interval);
      TruncIsFloor(x);
      FloorBound(0, x);
      assert x + interval == (i + 1) as real * interval;
      assert x < totalFrames as real;
      assert r[i] == SampleFrame(i, interval);
      assert x.Floor as real <= x;
    }
  }

  /** Later samples never ask for an earlier frame. */
  lemma SampleFrameMonotone(i: int, j: int, interval: real)
    requires 0 <= i <= j
    requires 0.0 < interval
    ensures SampleFrame(i, interval) <= SampleFrame(j, interval)
  {
    var x, y := i as real * interval, j as real * interval;
    ScaleOrder(0.0, i as real, interval);
    assert 0.0 * interval == 0.0;
    assert 0.0 <= x;
    assert i as real <= j as real;
    ScaleOrder(i as real, j as real, interval);
    assert x <= y;
    TruncIsFloor(x);
    TruncIsFloor(y);
    FloorMonotone(x, y);
  }

  /** Values at least one apart have distinct integer parts. */
  lemma TruncGap(x: real, y: real)
    requires 0.0 <= x
    requires x + 1.0 <= y
    ensures Trunc(x) < Trunc(y)
  {
    FloorMonotone(x + 1.0, y);
    FloorShift(x, 1);
    TruncIsFloor(x);
    TruncIsFloor(y);
  }

  /** The next sample lies one interval further on. */
  lemma NextSamplePosition(i: int, interval: real)
    ensures (i + 1) as real * interval == i as real * interval + interval
  {
  }

  /** With an interval of at least one frame, a later sample asks for a later frame. */
  lemma SampleFrameStrict(i: int, j: int, interval: real)
    requires 0 <= i < j
    requires 1.0 <= interval
    ensures SampleFrame(i, interval) < SampleFrame(j, interval)
  {
    var x, y := i as real * interval, j as real * interval;
    ScaledGap(i, j, interval);
    TruncGap(x, y);
  }

  /** Positions of later samples, at least one frame apart per interval, differ by at least one frame. */
  lemma ScaledGap(i: int, j: int, interval: real)
    requires 0 <= i < j
    requires 1.0 <= interval
    ensures 0.0 <= i as real * interval
    ensures i as real * interval + 1.0 <= j as real * interval
  {
    var a, b := (i + 1) as real, j as real;
    ScaleOrder(0.0, i as real, interval);
    assert 0.0 * interval == 0.0;
    assert a <= b;
    ScaleOrder(a, b, interval);
    NextSamplePosition(i, interval);
  }

  /** For any positive interval the indices never go backwards. */
  lemma IndicesNonDecreasing(totalFrames: int, interval: real)
    requires 0.0 < interval
    ensures NonDecreasing(TargetIndices(totalFrames, interval))
  {
    var r := TargetIndices(totalFrames, interval);
    forall i, j | 0 <= i <= j < |r|
      ensures r[i] <= r[j]
    {
      assert r[i] == SampleFrame(i, interval) && r[j] == SampleFrame(j, interval);
      SampleFrameMonotone(i, j, interval);
    }
  }

  /** When samples are at least one frame apart, no frame is requested twice. */
  lemma IndicesStrictlyIncreasing(totalFrames: int, interval: real)
    requires 1.0 <= interval
    ensures StrictlyIncreasing(TargetIndices(totalFrames, interval))
  {
    var r := TargetIndices(totalFrames, interval);
    forall i, j | 0 <= i < j < |r|
      ensures r[i] < r[j]
    {
      assert r[i] == SampleFrame(i, interval) && r[j] == SampleFrame(j, interval);
      SampleFrameStrict(i, j, interval);
    }
  }

  /**
   Once there are at least two samples, the indices are strictly increasing
   exactly when the interval is at least one frame; sampling faster than the
   native rate requests frame 0 twice.
   */
  lemma StrictlyIncreasingIffWholeFrameApart(totalFrames: int, interval: real)
    requires 0.0 < interval
    requires |TargetIndices(totalFrames, interval)| >= 2
    ensures StrictlyIncreasing(TargetIndices(totalFrames, interval)) <==> 1.0 <= interval
  {
    var r := TargetIndices(totalFrames, interval);
    if 1.0 <= interval {
      IndicesStrictlyIncreasing(totalFrames, interval);
    } else {
      IndicesInBounds(totalFrames, interval);
      assert r[0] == 0;
      FloorBound(1, 1.0 * interval);
      assert r[1] == 0;
    }
  }

  /**
   At one sample per second the interval is the native rate, so the number of
   indices is the video's length in whole seconds.
   */
  lemma OneHzCountIsWholeSeconds(fps: real, totalFrames: int)
    requires 0.0 < fps
    requires 0 <= totalFrames
    ensures |TargetIndices(totalFrames, FrameInterval(fps, 1.0))| == (totalFrames as real / fps).Floor
  {
    assert FrameInterval(fps, 1.0) == fps;
    CountIsWholeIntervals(totalFrames, fps);
  }

  /** A one-minute clip at 30 frames per second, sampled at 1 Hz: frames 0, 30, ..., 1770. */
  lemma OneMinuteAtThirtyFps()
    ensures TargetIndices(1800, FrameInterval(30.0, 1.0)) == seq(60, i => 30 * i)
  {
    var r := TargetIndices(1800, FrameInterval(30.0, 1.0));
    OneHzCountIsWholeSeconds(30.0, 1800);
    assert |r| == 60;
    forall i | 0 <= i < 60
      ensures r[i] == 30 * i
    {
      assert (i as real * 30.0) == (30 * i) as real;
    }
  }
}

=== FILE: frame_selection.dfy ===
/**
 The loop that visits the target indices. For each index the capture is
 positioned on that frame and one frame is read. A successful read keeps the
 encoded frame, a failed read is skipped without a placeholder, and an
 exception raised by the decoder leaves the loop. The decoder is an abstract
 oracle from frame index to read outcome; the encoded image is opaque.
 */
module FrameSelection {
  import opened Orders

  /** What seeking to one frame and reading it produces. */
  datatype ReadResult<F> =
    | Frame(image: F)   // the read succeeded; `image` is the encoded still
    | NoFrame           // the read reported failure
    | Raises            // the decoder or encoder raised an exception

  /** How the loop ends: with the kept frames, or by an exception at position `at`. */
  datatype Selection<F> = Completed(frames: seq<F>) | Aborted(at: nat)

  /** Position of the first index whose read raises, or `|indices|` when none does. */
  function FirstRaise<F>(indices: seq<int>, read: int -> ReadResult<F>): (p: nat)
    ensures p <= |indices|
    ensures forall j :: 0 <= j < p ==> !read(indices[j]).Raises?
    ensures p < |indices| ==> read(indices[p]).Raises?
    decreases |indices|
  {
    if |indices| == 0 then 0
    else if read(indices[0]).Raises? then 0
    else 1 + FirstRaise(indices[1..], read)
  }

  /** The images of the successful reads, in visiting order. */
  function Kept<F>(indices: seq<int>, read: int -> ReadResult<F>): (frames: seq<F>)
    ensures |frames| <= |indices|
    ensures |frames| == |indices| <==> forall j :: 0 <= j < |indices| ==> read(indices[j]).Frame?
    decreases |indices|
  {
    if |indices| == 0 then []
    else
      var rest := Kept(indices[1..], read);
      assert forall j :: 0 < j < |indices| ==> indices[j] == indices[1..][j - 1];
      match read(indices[0])
      case Frame(image) => [image] + rest
      case _ => rest
  }

  /** The loop's result: aborted at the first raising index, otherwise the kept frames. */
  function Select<F>(indices: seq<int>, read: int -> ReadResult<F>): (s: Selection<F>)
    ensures s.Aborted? <==> exists j :: 0 <= j < |indices| && read(indices[j]).Raises?
    ensures s.Aborted? ==>
      s.at < |indices| && read(indices[s.at]).Raises? && forall j :: 0 <= j < s.at ==> !read(indices[j]).Raises?
    ensures s.Completed? ==> s.frames == Kept(indices, read)
  {
    var p := FirstRaise(indices, read);
    if p < |indices| then Aborted(p) else Completed(Kept(indices, read))
  }

  /** Selecting from consecutive stretches of indices and joining the results is selecting from the whole. */
  lemma {:induction false} KeptAppend<F>(a: seq<int>, b: seq<int>, read: int -> ReadResult<F>)
    ensures Kept(a + b, read) == Kept(a, read) + Kept(b, read)
    decreases |a|
  {
    if |a| == 0 {
      assert a + b == b;
    } else {
      assert (a + b)[1..] == a[1..] + b;
      KeptAppend(a[1..], b, read);
    }
  }

  /** `P` lists, in increasing order, positions of `indices` whose reads produced `frames`. */
  ghost predicate SourcedFrom<F>(indices: seq<int>, read: int -> ReadResult<F>, frames: seq<F>, P: seq<nat>)
  {
    && |P| == |frames|
    && (forall m :: 0 <= m < |P| ==> P[m] < |indices| && read(indices[P[m]]) == Frame(frames[m]))
    && StrictlyIncreasing(P)
  }

  /** Every position of `indices` whose read succeeded is listed in `P`. */
  ghost predicate CoversSuccesses<F>(indices: seq<int>, read: int -> ReadResult<F>, P: seq<nat>)
  {
    forall j {:trigger j in P} :: 0 <= j < |indices| && read(indices[j]).Frame? ==> j in P
  }

  /** The positions of `indices[1..]`, moved up by one, preceded by 0 when `head` holds. */
  function Shifted(head: bool, Q: seq<nat>): (P: seq<nat>)
    ensures |P| == (if head then 1 else 0) + |Q|
    ensures forall k :: 0 <= k < |Q| ==> P[|P| - |Q| + k] == Q[k] + 1
    ensures head ==> P[0] == 0
  {
    if head then [0] + Shifted(false, Q)
    else if |Q| == 0 then []
    else [Q[0] + 1] + Shifted(false, Q[1..])
  }

  lemma ShiftedSourced<F>(indices: seq<int>, read: int -> ReadResult<F>, Q: seq<nat>)
    requires |indices| > 0
    requires SourcedFrom(indices[1..], read, Kept(indices[1..], read), Q)
    ensures SourcedFrom(indices, read, Kept(indices, read), Shifted(read(indices[0]).Frame?, Q))
  {
    ShiftedImages(indices, read, Q);
    ShiftedIncreasing(read(indices[0]).Frame?, Q);
  }

  lemma ShiftedImages<F>(indices: seq<int>, read: int -> ReadResult<F>, Q: seq<nat>)
    requires |indices| > 0
    requires |Q| == |Kept(indices[1..], read)|
    requires forall k :: 0 <= k < |Q| ==> Q[k] < |indices[1..]| && read(indices[1..][Q[k]]) == Frame(Kept(indices[1..], read)[k])
    ensures var P := Shifted(read(indices[0]).Frame?, Q);
      && |P| == |Kept(indices, read)|
      && forall m :: 0 <= m < |P| ==> P[m] < |indices| && read(indices[P[m]]) == Frame(Kept(indices, read)[m])
  {
    var rest, K, KR := indices[1..], Kept(indices, read), Kept(indices[1..], read);
    var P := Shifted(read(indices[0]).Frame?, Q);
    var h := |P| - |Q|;
    assert K == (if h == 1 then [read(indices[0]).image] + KR else KR);
    forall m | 0 <= m < |P|
      ensures P[m] < |indices| && read(indices[P[m]]) == Frame(K[m])
    {
      if m >= h {
        var k := m - h;
        assert P[h + k] == Q[k] + 1;
        assert K[h + k] == KR[k];
        assert indices[Q[k] + 1] == rest[Q[k]];
      }
    }
  }

  lemma ShiftedIncreasing(head: bool, Q: seq<nat>)
    requires StrictlyIncreasing(Q)
    ensures var P := Shifted(head, Q);
      StrictlyIncreasing(P)
  {
    var P := Shifted(head, Q);
    var h := |P| - |Q|;
    forall m, n | 0 <= m < n < |P|
      ensures P[m] < P[n]
    {
      assert P[h + (n - h)] == Q[n - h] + 1;
      if m >= h {
        assert P[h + (m - h)] == Q[m - h] + 1;
      }
    }
  }

  lemma ShiftedCovers<F>(indices: seq<int>, read: int -> ReadResult<F>, Q: seq<nat>)
    requires |indices| > 0
    requires CoversSuccesses(indices[1..], read, Q)
    ensures CoversSuccesses(indices, read, Shifted(read(indices[0]).Frame?, Q))
  {
    var rest := indices[1..];
    var P := Shifted(read(indices[0]).Frame?, Q);
    var h := |P| - |Q|;
    forall j | 0 <= j < |indices| && read(indices[j]).Frame?
      ensures j in P
    {
      if j == 0 {
        assert P[0] == 0;
      } else {
        assert read(rest[j - 1]).Frame?;
        assert j - 1 in Q;
        var k :| 0 <= k < |Q| && Q[k] == j - 1;
        assert P[h + k] == j;
      }
    }
  }

  /**
   The kept frames are exactly the successful reads in visiting order: `P`
   lists the positions they come from, strictly increasing, and every
   position whose read succeeded appears in `P`.
   */
  lemma {:induction false} KeptPositions<F>(indices: seq<int>, read: int -> ReadResult<F>) returns (P: seq<nat>)
    ensures SourcedFrom(indices, read, Kept(indices, read), P)
    ensures CoversSuccesses(indices, read, P)
    decreases |indices|
  {
    if |indices| == 0 {
      P := [];
    } else {
      var Q := KeptPositions(indices[1..], read);
      ShiftedSourced(indices, read, Q);
      ShiftedCovers(indices, read, Q);
      P := Shifted(read(indices[0]).Frame?, Q);
    }
  }

  /**
   The loop as `extract_frames` writes it: visit every index in order, append the image of each
   successful read, skip failed reads, and stop at the first exception.
   */
  method SelectFrames<F>(indices: seq<int>, read: int -> ReadResult<F>) returns (s: Selection<F>)
    ensures s == Select(indices, read)
  {
    var frames: seq<F> := [];
    var i := 0;
    while i < |indices|
      invariant 0 <= i <= |indices|
      invariant forall j :: 0 <= j < i ==> !read(indices[j]).Raises?
      invariant frames == Kept(indices[..i], read)
    {
      var outcome := read(indices[i]);
      assert indices[..i + 1] == indices[..i] + [indices[i]];
      KeptAppend(indices[..i], [indices[i]], read);
      match outcome {
        case Raises =>
          return Aborted(i);
        case NoFrame =>
        case Frame(image) =>
          frames := frames + [image];
      }
      i := i + 1;
    }
    assert indices[..i] == indices;
    s := Completed(frames);
  }
}

=== FILE: orders.dfy ===
/** Orderings of integer sequences, shared by the index arithmetic and the selection loop. */
module Orders {

  predicate NonDecreasing(s: seq<int>)
  {
    forall i, j :: 0 <= i <= j < |s| ==> s[i] <= s[j]
  }

  predicate StrictlyIncreasing(s: seq<int>)
  {
    forall i, j :: 0 <= i < j < |s| ==> s[i] < s[j]
  }
}

=== FILE: py_numbers.dfy ===
/**
 The two pieces of Python numeric behaviour that the frame sampler relies on:
 `int()` applied to a float, which truncates toward zero, and the length of
 `range(k)`, which is empty for every `k <= 0`. Floats are modelled as exact
 reals; IEEE rounding is not part of this model.
 */
module PyNumbers {

  /** Python's `int(x)` for a finite float `x`: the integer part, rounded toward zero. */
  function Trunc(x: real): (n: int)
    ensures 0.0 <= x ==> n as real <= x < n as real + 1.0
    ensures x < 0.0 ==> n as real - 1.0 < x <= n as real
  {
    if x >= 0.0 then x.Floor else -((-x).Floor)
  }

  /** Number of values `range(k)` produces. */
  function RangeLength(k: int): nat
  {
    if k > 0 then k else 0
  }

  /** On non-negative values truncation and floor agree. */
  lemma TruncIsFloor(x: real)
    requires 0.0 <= x
    ensures Trunc(x) == x.Floor
  {
  }

  /** Truncating a negative value never yields a positive integer. */
  lemma TruncOfNegative(x: real)
    requires x < 0.0
    ensures Trunc(x) <= 0
  {
  }

  /** An integer lies below a real exactly when it lies below that real's floor. */
  lemma FloorBound(k: int, x: real)
    ensures k as real <= x <==> k <= x.Floor
  {
  }

  /** Floor is monotone. */
  lemma FloorMonotone(x: real, y: real)
    requires x <= y
    ensures x.Floor <= y.Floor
  {
  }

  /** Adding a whole number moves the floor by exactly that amount. */
  lemma FloorShift(x: real, k: int)
    ensures (x + k as real).Floor == x.Floor + k
  {
  }

  /** Multiplying both sides by a positive factor keeps (and reflects) the order. */
  lemma ScaleOrder(a: real, b: real, d: real)
    requires 0.0 < d
    ensures a <= b <==> a * d <= b * d
  {
    if a <= b {
      assert (b - a) * d >= 0.0;
    } else {
      assert (a - b) * d > 0.0;
    }
  }

  /** A lower bound on `q` scales to a lower bound on `t == q * d`. */
  lemma ScaleLower(q: real, d: real, lo: real, t: real)
    requires 0.0 < d
    requires lo <= q
    requires q * d == t
    ensures lo * d <= t
  {
    ScaleOrder(lo, q, d);
  }

  /** A strict upper bound on `q` scales to a strict upper bound on `t == q * d`. */
  lemma ScaleUpper(q: real, d: real, hi: real, t: real)
    requires 0.0 < d
    requires q < hi
    requires q * d == t
    ensures t < hi * d
  {
    ScaleOrder(hi, q, d);
  }

  /** A bound on `q` holds exactly when the scaled bound holds on `t == q * d`. */
  lemma ScaleBound(q: real, d: real, lo: real, t: real)
    requires 0.0 < d
    requires q * d == t
    ensures lo <= q <==> lo * d <= t
  {
    ScaleOrder(lo, q, d);
  }

  /** Dividing by a non-zero number and multiplying back is the identity. */
  lemma DivThenScale(a: real, d: real)
    requires d != 0.0
    ensures (a / d) * d == a
  {
  }

  /** The sign of a quotient by a positive divisor is the sign of the dividend. */
  lemma DivSign(a: real, d: real)
    requires 0.0 < d
    ensures 0.0 <= a <==> 0.0 <= a / d
  {
    DivThenScale(a, d);
    ScaleOrder(0.0, a / d, d);
  }
}

=== FILE: video_analyzer.dfy ===
/**
 `extract_frames`: open the video, read its metadata, compute the target
 indices, run the selection loop, and release the capture on every path out.
 The file system and the decoder are described by a `Probe` (what opening the
 path finds) and a read oracle; the run records what it did to the capture as
 a trace of events, so that acquisition and release can be stated.
 */
module VideoAnalyzer {
  import opened PyNumbers
  import opened FrameIndices
  import opened FrameSelection
  import opened Orders

  /** What the sampler finds at the video path. */
  datatype Probe =
    | Missing                                // no file at the path
    | Unopenable                             // the file exists but the capture does not open
    | Opened(frameCount: real, fps: real)    // an open capture and the metadata it reports

  /** Exceptions that escape `extract_frames`. */
  datatype PyError = ZeroDivisionError | DecoderError

  datatype Exit<F> = Returned(frames: seq<F>) | Raised(error: PyError)

  /** What one call did to the capture. */
  datatype Event = Acquire | Seek(index: int) | Release

  datatype Run<F> = Run(exit: Exit<F>, trace: seq<Event>)

  /** One `Seek` per index, in order. */
  function Seeks(indices: seq<int>): (t: seq<Event>)
    ensures |t| == |indices|
    ensures forall j :: 0 <= j < |t| ==> t[j] == Seek(indices[j])
  {
    if |indices| == 0 then [] else [Seek(indices[0])] + Seeks(indices[1..])
  }

  /** The frame positions a trace seeks to, in order. */
  function SeekTargets(t: seq<Event>): seq<int>
  {
    if |t| == 0 then []
    else match t[0]
      case Seek(index) => [index] + SeekTargets(t[1..])
      case _ => SeekTargets(t[1..])
  }

  /** The capture is acquired first, released last, and each happens exactly once. */
  predicate AcquiredThenReleasedOnce(t: seq<Event>)
  {
    && |t| >= 2
    && t[0] == Acquire
    && t[|t| - 1] == Release
    && multiset(t)[Acquire] == 1
    && multiset(t)[Release] == 1
  }

  /** Frame count as the sampler sees it: `int()` of the reported value, its whole part toward zero. */
  function TotalFrames(probe: Probe): (total: int)
    requires probe.Opened?
    ensures 0.0 <= probe.frameCount ==> 0 <= total && total as real <= probe.frameCount < total as real + 1.0
    ensures probe.frameCount < 0.0 ==> total <= 0 && total as real - 1.0 < probe.frameCount <= total as real
  {
    Trunc(probe.frameCount)
  }

  /**
   The metadata guard: a zero native rate or a zero frame count stops the
   sampler. Since the count is truncated first, every reported count strictly
   between -1 and 1 counts as zero.
   */
  predicate UsableMetadata(probe: Probe): (ok: bool)
    requires probe.Opened?
    ensures ok <==> probe.fps != 0.0 && (probe.frameCount <= -1.0 || 1.0 <= probe.frameCount)
  {
    probe.fps != 0.0 && TotalFrames(probe) != 0
  }

  /** A capture bracketed by acquisition and release, with the given seeks in between. */
  function Bracketed(seeks: seq<int>): (t: seq<Event>)
    ensures AcquiredThenReleasedOnce(t)
  {
    var t := [Acquire] + Seeks(seeks) + [Release];
    assert Acquire !in Seeks(seeks) && Release !in Seeks(seeks);
    assert multiset(t) == multiset([Acquire]) + multiset(Seeks(seeks)) + multiset([Release]);
    t
  }

  /**
   `extract_frames(video_path, frames_per_second=rate)`. A missing file, a
   capture that does not open, and unusable metadata all return an empty list;
   a zero `rate` raises at the interval division; a decoder exception inside
   the loop propagates. Whenever the capture was opened, it is released
   before the call returns or raises.
   */
  function ExtractFrames<F>(probe: Probe, rate: real, read: int -> ReadResult<F>): (run: Run<F>)
    ensures !probe.Opened? ==> run.exit == Returned([]) && run.trace == []
    ensures probe.Opened? ==> AcquiredThenReleasedOnce(run.trace)
    ensures probe.Opened? && !UsableMetadata(probe) ==> run.exit == Returned([])
    ensures run.exit.Returned? ==> |run.exit.frames| <= |SeekTargets(run.trace)|
  {
    match probe
    case Missing => Run(Returned([]), [])
    case Unopenable => Run(Returned([]), [])
    case Opened(_, fps) =>
      if !UsableMetadata(probe) then Run(Returned([]), Bracketed([]))
      else if rate == 0.0 then Run(Raised(ZeroDivisionError), Bracketed([]))
      else SampleAt(TargetIndices(TotalFrames(probe), FrameInterval(fps, rate)), read)
  }

  /**
   The part of the call after the index list is known: the selection loop over
   `indices`, inside the acquisition and release of the capture.
   */
  function SampleAt<F>(indices: seq<int>, read: int -> ReadResult<F>): (run: Run<F>)
    ensures AcquiredThenReleasedOnce(run.trace)
    ensures run.exit.Returned? <==> forall j :: 0 <= j < |indices| ==> !read(indices[j]).Raises?
    ensures run.exit.Returned? ==> run.exit.frames == Kept(indices, read) && SeekTargets(run.trace) == indices
    ensures run.exit.Raised? ==>
      run.exit.error == DecoderError && SeekTargets(run.trace) == indices[..FirstRaise(indices, read) + 1]
  {
    match Select(indices, read)
    case Aborted(p) =>
      SeekTargetsOfBracketed(indices[..p + 1]);
      Run(Raised(DecoderError), Bracketed(indices[..p + 1]))
    case Completed(frames) =>
      SeekTargetsOfBracketed(indices);
      Run(Returned(frames), Bracketed(indices))
  }

  /** Reading the seek targets back out of a trace of seeks gives the indices. */
  lemma {:induction false} SeekTargetsOfSeeks(indices: seq<int>)
    ensures SeekTargets(Seeks(indices)) == indices
    decreases |indices|
  {
    if |indices| > 0 {
      assert Seeks(indices)[1..] == Seeks(indices[1..]);
      SeekTargetsOfSeeks(indices[1..]);
    }
  }

  /** Seek targets of a joined trace are the joined seek targets. */
  lemma {:induction false} SeekTargetsAppend(a: seq<Event>, b: seq<Event>)
    ensures SeekTargets(a + b) == SeekTargets(a) + SeekTargets(b)
    decreases |a|
  {
    if |a| == 0 {
      assert a + b == b;
    } else {
      assert (a + b)[1..] == a[1..] + b;
      SeekTargetsAppend(a[1..], b);
    }
  }

  /** Acquisition and release contribute no seeks. */
  lemma SeekTargetsOfBracketed(indices: seq<int>)
    ensures SeekTargets(Bracketed(indices)) == indices
  {
    SeekTargetsAppend([Acquire] + Seeks(indices), [Release]);
    SeekTargetsAppend([Acquire], Seeks(indices));
    SeekTargetsOfSeeks(indices);
  }

  /**
   With an open capture, usable metadata and a non-zero rate, the sampler
   returns exactly when no read raises; it then returns the frames of the
   successful reads, in index order, having sought each target index once in
   order. When a read raises, the seeks stop at that index.
   */
  lemma CompletedRunKeepsSuccessfulReads<F>(probe: Probe, rate: real, read: int -> ReadResult<F>)
    requires probe.Opened? && UsableMetadata(probe) && rate != 0.0
    ensures var indices := TargetIndices(TotalFrames(probe), FrameInterval(probe.fps, rate));
      var run := ExtractFrames(probe, rate, read);
      && (run.exit.Returned? <==> forall j :: 0 <= j < |indices| ==> !read(indices[j]).Raises?)
      && (run.exit.Returned? ==> run.exit.frames == Kept(indices, read) && SeekTargets(run.trace) == indices)
      && (run.exit.Raised? ==>
            run.exit.error == DecoderError && SeekTargets(run.trace) == indices[..FirstRaise(indices, read) + 1])
  {
    var indices := TargetIndices(TotalFrames(probe), FrameInterval(probe.fps, rate));
    assert ExtractFrames(probe, rate, read) == SampleAt(indices, read);
  }

  /** An exception escapes only from a zero sampling rate or from the decoder, and never before the capture is open. */
  lemma RaisesOnlyForZeroRateOrDecoder<F>(probe: Probe, rate: real, read: int -> ReadResult<F>)
    ensures var run := ExtractFrames(probe, rate, read);
      run.exit.Raised? <==>
        && probe.Opened? && UsableMetadata(probe)
        && (rate == 0.0 || exists j :: 0 <= j < SampleCount(TotalFrames(probe), FrameInterval(probe.fps, rate))
                                       && read(TargetIndices(TotalFrames(probe), FrameInterval(probe.fps, rate))[j]).Raises?)
    ensures var run := ExtractFrames(probe, rate, read);
      run.exit.Raised? ==> (run.exit.error == ZeroDivisionError <==> rate == 0.0)
  {
  }

  /**
   At one sample per second, with positive native rate and frame count and
   every read succeeding, the sampler returns one frame per whole second of
   video: the frame count the analysis prompt takes as the duration.
   */
  lemma OneFramePerSecondOfVideo<F>(probe: Probe, read: int -> ReadResult<F>)
    requires probe.Opened? && 0.0 < probe.fps && 1 <= TotalFrames(probe)
    requires forall k :: read(k).Frame?
    ensures var run := ExtractFrames(probe, 1.0, read);
      run.exit.Returned? && |run.exit.frames| == (TotalFrames(probe) as real / probe.fps).Floor
  {
    var indices := TargetIndices(TotalFrames(probe), FrameInterval(probe.fps, 1.0));
    OneHzCountIsWholeSeconds(probe.fps, TotalFrames(probe));
    CompletedRunKeepsSuccessfulReads(probe, 1.0, read);
  }

  /** The entries of `s` at positions `P`. */
  function Pick(s: seq<int>, P: seq<nat>): (r: seq<int>)
    requires forall m :: 0 <= m < |P| ==> P[m] < |s|
    ensures |r| == |P|
    ensures forall m :: 0 <= m < |P| ==> r[m] == s[P[m]]
  {
    if |P| == 0 then [] else [s[P[0]]] + Pick(s, P[1..])
  }

  /** Picking at increasing positions keeps the order of the picked sequence. */
  lemma PickKeepsOrder(s: seq<int>, P: seq<nat>)
    requires forall m :: 0 <= m < |P| ==> P[m] < |s|
    requires StrictlyIncreasing(P)
    ensures NonDecreasing(s) ==> NonDecreasing(Pick(s, P))
    ensures StrictlyIncreasing(s) ==> StrictlyIncreasing(Pick(s, P))
  {
    var r := Pick(s, P);
    if NonDecreasing(s) {
      forall m, n | 0 <= m <= n < |r|
        ensures r[m] <= r[n]
      {
        assert P[m] <= P[n];
      }
    }
    if StrictlyIncreasing(s) {
      forall m, n | 0 <= m < n < |r|
        ensures r[m] < r[n]
      {
        assert P[m] < P[n];
      }
    }
  }

  /** A sampling rate no faster than the native rate spaces samples at least one frame apart. */
  lemma IntervalAtLeastOne(fps: real, rate: real)
    requires 0.0 < rate <= fps
    ensures 1.0 <= FrameInterval(fps, rate)
  {
    DivThenScale(fps, rate);
    ScaleOrder(1.0, fps / rate, rate);
  }

  /**
   With positive native and sampling rates, every returned frame is the read
   of a frame inside the video; `ks` names those frames, in the order
   returned. They never go backwards, and when the sampling rate does not
   exceed the native rate no frame is returned twice.
   */
  lemma ReturnedFramesComeFromTheVideo<F>(probe: Probe, rate: real, read: int -> ReadResult<F>) returns (ks: seq<int>)
    requires probe.Opened? && 0.0 < probe.fps && 0.0 < rate
    ensures var run := ExtractFrames(probe, rate, read);
      run.exit.Returned? ==>
        && |ks| == |run.exit.frames|
        && (forall m :: 0 <= m < |ks| ==> 0 <= ks[m] < TotalFrames(probe) && read(ks[m]) == Frame(run.exit.frames[m]))
        && NonDecreasing(ks)
        && (rate <= probe.fps ==> StrictlyIncreasing(ks))
  {
    if !UsableMetadata(probe) {
      return [];
    }
    var total := TotalFrames(probe);
    var interval := FrameInterval(probe.fps, rate);
    DivSign(probe.fps, rate);
    var indices := TargetIndices(total, interval);
    var P := KeptPositions(indices, read);
    ks := Pick(indices, P);
    var frames := Kept(indices, read);
    assert forall m :: 0 <= m < |ks| ==> read(ks[m]) == Frame(frames[m]);
    IndicesInBounds(total, interval);
    assert forall m :: 0 <= m < |ks| ==> 0 <= ks[m] < total;
    IndicesNonDecreasing(total, interval);
    if rate <= probe.fps {
      IntervalAtLeastOne(probe.fps, rate);
      IndicesStrictlyIncreasing(total, interval);
    }
    PickKeepsOrder(indices, P);
    CompletedRunKeepsSuccessfulReads(probe, rate, read);
  }
}
